=== FILE: README.md ===
# Standup games client: wheel landing and Rock-Paper-Scissors view states

A Dafny model of the client-side logic of the "who wants to run standup" web
front end. The front end renders two party games whose outcomes are decided by
a remote server over STOMP; what it decides itself is modelled here:

- **Spin The Wheel (newer component).** The pool of player names mirrored
  from `/topic/players`, the reaction to a `/topic/wheel-results` winner (find
  the winner's slice, aim the wheel at its centre after five full turns,
  reveal the winner part-way through the spin, reset after six seconds), and
  the join, spin and back-to-menu controls. Angles and delays are exact
  `real`s (`WheelGeometry`), the component is a pure transition function over
  an immutable state record (`Wheel`).
- **Spin The Wheel (older component).** The same pool and controls with a
  fixed ten-turn spin, a three-second reveal timer and a local-only reset
  (`LegacyWheel`).
- **Rock Paper Scissors.** The WAITING / PLAYING / RESULT machine with its
  move submission, its three-tick countdown per result message and its
  play-again button (`Rps`, lemmas in `RpsProperties`). The single-file
  component and the one composed from StartGame / DisplayResults differ only
  in the start guard, selected by `Rps.Variant`.

Every handler is a function from the current state to the next state plus the
STOMP frames it publishes (`Outbound.Message`, a destination and an abstract
body). Timers are explicit: a `setTimeout` or `setInterval` the code starts is
a pending entry in the state, and a `TimerFired(k)` / `IntervalTick(k)` event
runs entry `k`. The environment may fire pending entries in any order, which
includes the real-time order. A click on a control that is not rendered (or is
disabled) is a no-op event. `hasClient` / `connected` stand for the STOMP
client existing / being connected; the connection itself is not modelled.
`JsText` models JavaScript's `String.prototype.trim` over the ECMAScript
whitespace and line-terminator code points, and proves that a name is blank
exactly when all its characters are whitespace.

The landing property is stated in the frame the slices are drawn in, where
angle 0 is 3 o'clock and angles grow clockwise: after the final rotation, the
wheel angle under a pointer at angle 0 is the centre of the winner's slice
(`WheelGeometry.LandsOnWinner`). `LandingOffset` gives the general case: a
pointer at angle `p` sees the angle `target + p`. If the arrow is drawn at
12 o'clock (angle 270), the wheel stops a quarter turn away from the winner;
see "## Findings".

The newer wheel's winner handler reads the player list through a ref that an
effect refreshes only after React re-renders. The model keeps that ref as its
own field (`playersRef`) and the re-render as an explicit `Rendered` event, so
a winner arriving between a players message and the re-render is aimed within
the old list, as in the code.

## Model

| member | source | states |
|---|---|---|
| JsText.TrimStart | src/components/Game/SpinTheWheel.tsx:55 | the start of `trim()`: the result is a suffix of the name, everything dropped is ECMAScript whitespace or a line terminator, and the result is empty or starts with a non-whitespace character |
| JsText.TrimEnd | src/components/RockPaperScissors/StartGame.tsx:27 | the end of `trim()`: the result is a prefix of the name, everything dropped is whitespace or a line terminator, and the result is empty or ends with a non-whitespace character |
| JsText.Trim | src/components/SpinTheWheel/SpinTheWheel.tsx:96 | `trim()` returns a contiguous middle part of the name, everything removed before and after it is whitespace or a line terminator, and the result is empty or has a non-whitespace character at each end |
| JsText.BlankIffAllWhitespace | src/components/SpinTheWheel/SpinTheWheel.tsx:96 | `username.trim() !== ""` fails exactly when every character of the name is whitespace |
| Lobby.Join | src/components/SpinTheWheel/SpinTheWheel.tsx:95-103 | join publishes one `/app/join` frame carrying the untrimmed name, and clears the input, iff there is a client and the name is not blank; otherwise nothing is sent and the input is kept |
| Lobby.JoinNeedsVisibleCharacter | src/components/Game/SpinTheWheel.tsx:54-62 | a join is published iff there is a client and the name holds at least one non-whitespace character |
| Lobby.JoinTwiceSendsOnce | src/components/SpinTheWheel/SpinTheWheel.tsx:101 | because a successful join clears the input, pressing join again sends nothing |
| Lobby.Spin | src/components/SpinTheWheel/SpinTheWheel.tsx:105-112 | at most one frame, an empty `/app/spin`, and it is sent iff there is a client and the player list is non-empty |
| WheelGeometry.SliceAngle | src/components/SpinTheWheel/SpinTheWheel.tsx:51 | the slice angle is positive and N slices make exactly 360 degrees |
| WheelGeometry.SliceOf | src/components/SpinTheWheel/SpinTheWheel.tsx:164-166 | every angle of [0, 360) lies in a slice `i < N` drawn from `i*s` to `(i+1)*s` |
| WheelGeometry.SlicesTile | src/components/SpinTheWheel/SpinTheWheel.tsx:164-166 | an angle of [0, 360) lies in slice `i` iff `i` is the one slice `SliceOf` names: the slices cover the turn without overlap |
| WheelGeometry.SlicesWithinTurn | src/components/SpinTheWheel/SpinTheWheel.tsx:165-166 | every slice lies inside [0, 360) |
| WheelGeometry.SumOfSlices | src/components/SpinTheWheel/SpinTheWheel.tsx:162-166 | the first `k` slices together span exactly up to the start of slice `k` |
| WheelGeometry.SlicesSumToFullTurn | src/components/SpinTheWheel/SpinTheWheel.tsx:162-166 | all N slices together span exactly 360 degrees |
| WheelGeometry.IndexOf | src/components/SpinTheWheel/SpinTheWheel.tsx:54 | `indexOf` is -1 iff the name is absent, and otherwise the position of its first occurrence |
| WheelGeometry.WinningIndex | src/components/SpinTheWheel/SpinTheWheel.tsx:54-55 | the winning index is the first position of the winner, 0 when absent, and always below N for N >= 1 |
| WheelGeometry.TargetAngle | src/components/SpinTheWheel/SpinTheWheel.tsx:58 | the target is the midpoint of the winner's slice and lies strictly inside (0, 360) |
| WheelGeometry.FinalRotation | src/components/SpinTheWheel/SpinTheWheel.tsx:61-62 | the final rotation lies strictly between 1800 and 2160 and adds up with the target to six whole turns |
| WheelGeometry.RevealDelay | src/components/SpinTheWheel/SpinTheWheel.tsx:63-71 | the reveal delay equals 3000 * 1800 / finalRotation and lies strictly between 2500 and 3000 ms |
| WheelGeometry.RevealBeforeReset | src/components/SpinTheWheel/SpinTheWheel.tsx:70-82 | the winner timer fires strictly after 0 and strictly before the 6000 ms reset timer |
| WheelGeometry.LandingOffset | src/components/SpinTheWheel/SpinTheWheel.tsx:57-62 | after the final rotation a pointer at angle `p` faces the wheel angle `target + p` (mod 360) |
| WheelGeometry.LandsOnWinner | src/components/SpinTheWheel/SpinTheWheel.tsx:53-62 | after the final rotation a pointer at angle 0 of the drawing frame (3 o'clock) faces the centre of the winning slice, and that angle lies in the winning slice |
| WheelGeometry.TopArrowMissesWinner | src/components/SpinTheWheel/SpinTheWheel.tsx:153-156 | with the arrow at 12 o'clock, players A, B, C and winner B (index 1) stop with angle 90, slice 0, under the arrow |
| WheelGeometry.AimedRotation | src/components/SpinTheWheel/SpinTheWheel.tsx:57-62 | the corrected rotation is between 5 and 6 turns, brings the target under a pointer at any angle, and equals the original rotation when the pointer is at angle 0 |
| WheelGeometry.AimedLandsOnWinner | src/components/SpinTheWheel/SpinTheWheel.tsx:53-62 | with the corrected rotation the winning slice stops under the pointer wherever the pointer is |
| WheelGeometry.ThreePlayerExample | src/components/SpinTheWheel/SpinTheWheel.tsx:50-62 | players A, B, C with winner B give index 1, slice 120, target 180 and final rotation 1980 |
| Wheel.Init | src/components/SpinTheWheel/SpinTheWheel.tsx:10-20 | the wheel mounts with no players (in state and in the ref), no winner, an empty input, rotation 0, not spinning, no timers |
| Wheel.SyncRef | src/components/SpinTheWheel/SpinTheWheel.tsx:22-25 | after a re-render the ref holds the current player list and nothing else changes |
| Wheel.WinnerSeesCommittedList | src/components/SpinTheWheel/SpinTheWheel.tsx:45-48 | a players message not yet followed by a re-render does not change where a winner message aims the wheel |
| Wheel.RenderCommitsList | src/components/SpinTheWheel/SpinTheWheel.tsx:47-58 | once the re-render has run, a winner message aims at the winner's slice in the new list |
| Wheel.OnPlayers | src/components/SpinTheWheel/SpinTheWheel.tsx:35-38 | a players message sets the list to the decoded array and changes nothing else |
| Wheel.LatestSnapshotWins | src/components/SpinTheWheel/SpinTheWheel.tsx:35-38 | two players messages in a row leave the same state as the second alone: nothing is merged |
| Wheel.OnWinner | src/components/SpinTheWheel/SpinTheWheel.tsx:45-83 | a winner message starts spinning, turns the wheel by between 5 and 6 turns so that a pointer at angle 0 faces the centre of the winner's slice of the list held in the ref (slice 0 for an unknown name), and schedules the reveal after exactly `RevealDelay` of that target (between 2500 and 3000 ms) and the reset at 6000 ms; the lists, winner, input and client are unchanged |
| Wheel.Fire | src/components/SpinTheWheel/SpinTheWheel.tsx:74-82 | a fired reveal sets the winner and leaves the wheel where it is; a fired reset returns rotation to 0 and stops spinning; the timer is discarded |
| Wheel.JoinGame | src/components/SpinTheWheel/SpinTheWheel.tsx:95-103 | join publishes iff there is a client and the name is not blank; it then sends exactly one `/app/join` frame carrying the untrimmed name and clears the input box, and otherwise changes nothing |
| Wheel.StartWheel | src/components/SpinTheWheel/SpinTheWheel.tsx:105-112 | spin publishes iff there is a client and players is non-empty, and what it sends is exactly one empty `/app/spin` frame; no state changes |
| Wheel.ClearPlayers | src/components/SpinTheWheel/SpinTheWheel.tsx:114-126 | back-to-menu always empties players, clears the winner, stops spinning and zeroes the rotation; it publishes `/app/clear-players` iff a client exists |
| Wheel.SpinNeedsPool | src/components/SpinTheWheel/SpinTheWheel.tsx:105-126 | after back-to-menu a spin asks for nothing; with a client and names a spin sends one empty `/app/spin`, and a second press sends the same again from the same state |
| Wheel.ClearIdempotent | src/components/SpinTheWheel/SpinTheWheel.tsx:114-126 | clearing twice leaves the same state as clearing once |
| Wheel.SpinEnabled | src/components/SpinTheWheel/SpinTheWheel.tsx:211 | the spin button is enabled exactly while the wheel is not spinning; `Wheel.Step` ignores a spin click otherwise |
| Wheel.Step | src/components/SpinTheWheel/SpinTheWheel.tsx:211 | only the join, spin and back controls publish, and the spin button does nothing while the wheel spins |
| Wheel.SpinThenSettle | src/components/SpinTheWheel/SpinTheWheel.tsx:65-82 | after the reveal the winner is shown while the wheel rests at the final rotation; after the reset it is at 0, not spinning, winner still shown, other timers untouched |
| Wheel.RevealShowsMessageName | src/components/SpinTheWheel/SpinTheWheel.tsx:73-76 | the revealed name is the message body even when it is not in the list |
| Wheel.RevealSurvivesClear | src/components/SpinTheWheel/SpinTheWheel.tsx:114-126 | the back link's click handler cancels no timeout: if the component is still mounted when the pending reveal fires, it sets a winner on the emptied wheel |
| LegacyWheel.Init | src/components/Game/SpinTheWheel.tsx:9-13 | the old wheel mounts with no players, no winner, not spinning, an empty input |
| LegacyWheel.ResetGame | src/components/Game/SpinTheWheel.tsx:16-20 | reset empties players, clears the winner and stops spinning, publishing nothing |
| LegacyWheel.OnPlayers | src/components/Game/SpinTheWheel.tsx:28-30 | a players message replaces the list and changes nothing else |
| LegacyWheel.OnWinner | src/components/Game/SpinTheWheel.tsx:32-40 | a wheel result sets spinning and schedules one timer carrying the message body; players, winner, input and client are unchanged |
| LegacyWheel.Fire | src/components/Game/SpinTheWheel.tsx:34-39 | the timer sets the winner to the message body, stops spinning and is discarded; players, input and client are unchanged |
| LegacyWheel.TargetRotation | src/components/Game/SpinTheWheel.tsx:98 | the rotation is 3600 while spinning and 0 otherwise |
| LegacyWheel.RotationIgnoresWinner | src/components/Game/SpinTheWheel.tsx:98 | the rotation does not depend on the winner or the players and is always a whole number of turns |
| LegacyWheel.Step | src/components/Game/SpinTheWheel.tsx:54-71 | only join and spin publish; back-to-menu publishes nothing |
| LegacyWheel.ControlsPublishWhen | src/components/Game/SpinTheWheel.tsx:54-71 | join publishes iff a client exists and the name is not blank, then clears the input; spin publishes iff a client exists and the list is non-empty, changing nothing |
| LegacyWheel.SpinThenReveal | src/components/Game/SpinTheWheel.tsx:32-40 | a result followed by its timer leaves the body as winner and the wheel at rotation 0 |
| Rps.MoveName | src/components/Game/RockPaperScissors.tsx:123-140 | the rock, paper and scissors buttons send exactly "rock", "paper" and "scissors" respectively, each string naming one move only |
| Rps.Init | src/components/Game/RockPaperScissors.tsx:17-21 | the game mounts in WAITING with move, result and countdown null |
| Rps.StartAllowed | src/components/RockPaperScissors/StartGame.tsx:27 | the single-file guard holds exactly when the name is non-empty; the composed one, disabled on `!username.trim()`, holds exactly for names with a character outside the JavaScript whitespace set |
| Rps.Start | src/components/Game/RockPaperScissors.tsx:95 | start enters PLAYING when the start guard holds and changes nothing otherwise |
| Rps.SendMove | src/components/Game/RockPaperScissors.tsx:57-68 | a move publishes `{player, choice}` to `/app/play`, records the move and enters PLAYING iff connected with a non-empty name; otherwise the state is unchanged |
| Rps.OnResult | src/components/Game/RockPaperScissors.tsx:28-33 | a result message shows 3, enters PLAYING and starts a new interval holding the message; move, result, name and connection are kept |
| Rps.Tick | src/components/Game/RockPaperScissors.tsx:33-41 | a tick lowers the interval's counter by exactly 1 and shows it; only when it reaches 0 is the result stored, RESULT entered and the interval cleared; other intervals, move, name and connection are kept |
| Rps.PlayAgain | src/components/RockPaperScissors/DisplayResults.tsx:33-37 | play-again enters WAITING with move and result null, and keeps the countdown, the name and the intervals |
| Rps.PanelOf | src/components/Game/RockPaperScissors.tsx:116-151 | move buttons are shown iff the countdown is null; a positive countdown is shown as its number; 0 shows "Revealing!" |
| Rps.MoveButtonsShown | src/components/Game/RockPaperScissors.tsx:102-116 | the move buttons are on screen exactly in PLAYING with a null countdown |
| Rps.ResultShown | src/components/RockPaperScissors/RockPaperScissors.tsx:85 | the result panel is shown only in RESULT, and in a reachable (valid) state exactly in RESULT |
| Rps.Step | src/components/RockPaperScissors/RockPaperScissors.tsx:69-92 | only a move click publishes, and a move click while the buttons are hidden does nothing |
| RpsProperties.InitValid | src/components/RockPaperScissors/RockPaperScissors.tsx:13-17 | the initial state satisfies the machine's invariant |
| RpsProperties.StepPreservesValid | src/components/Game/RockPaperScissors.tsx:29-40 | every event keeps the countdown in {0,1,2,3} (or null), every interval counter in 1..3, and a result present in RESULT |
| RpsProperties.RevealOnThirdTick | src/components/RockPaperScissors/RockPaperScissors.tsx:27-38 | after a result message the first two ticks show 2 and 1 and keep PLAYING and the old result; the third shows 0, reveals the message's result in RESULT and clears the interval |
| RpsProperties.OnlyFinalTickEntersResult | src/components/Game/RockPaperScissors.tsx:36-40 | the only event that enters RESULT is the tick taking an interval from 1 to 0, and it stores that interval's result |
| RpsProperties.PlayAgainIdempotent | src/components/RockPaperScissors/DisplayResults.tsx:33-37 | play-again twice equals play-again once |
| RpsProperties.PlayAgainForgetsResult | src/components/Game/RockPaperScissors.tsx:175-179 | play-again leads to the same state whatever result was shown |
| RpsProperties.WhitespaceNameStartsOnlyInline | src/components/RockPaperScissors/StartGame.tsx:24-27 | a whitespace-only name starts the single-file game but leaves the composed one in WAITING |
| RpsProperties.ComposedGuardIsTrimGuard | src/components/RockPaperScissors/StartGame.tsx:27 | the composed start guard holds exactly when the trimmed name is non-empty |
| RpsProperties.VisibleNameStartsBoth | src/components/RockPaperScissors/RockPaperScissors.tsx:73 | in both components a name with a non-whitespace character moves WAITING to PLAYING |
| RpsProperties.MoveCanBeResent | src/components/Game/RockPaperScissors.tsx:102-141 | after a move the buttons stay on screen while the countdown is null, so a second click publishes a second `/app/play` frame with the new choice |
| RpsProperties.CountdownRunsOut | src/components/Game/RockPaperScissors.tsx:28-41 | with no other interval running, a result message and three ticks end in RESULT showing that result with the countdown at 0, all else unchanged |
| RpsProperties.FullRound | src/components/RockPaperScissors/RockPaperScissors.tsx:46-92 | start, a move, a result and three ticks publish the move once and end in RESULT with the move and result recorded and the countdown at 0 |
| RpsProperties.SecondRoundHasNoButtons | src/components/RockPaperScissors/DisplayResults.tsx:6-11 | after a full round, play-again and start, PLAYING shows "Revealing!" instead of the move buttons and a move click publishes nothing |
| RpsProperties.PlayAgainResettingCountdown | src/components/RockPaperScissors/RockPaperScissors.tsx:85-91 | the corrected play-again agrees with the original except that it puts the countdown back to null, so the buttons are offered |
| RpsProperties.CorrectedSecondRoundHasButtons | src/components/RockPaperScissors/RockPaperScissors.tsx:85-91 | with the corrected play-again, the second round shows the move buttons and a move click publishes |

## Left out

- The STOMP/SockJS connection lifecycle (`activate`, `deactivate`, `onConnect`, subscription set-up, the hook in `src/hooks/useStompClient.ts`): network plumbing. The client's existence and connectedness are booleans in the state.
- The `/app/initial-players` request the newer wheel publishes when it connects: it belongs to the `onConnect` block of the connection lifecycle.
- `JSON.parse` of inbound bodies: payloads arrive already decoded (`seq<string>`, `GameResult`); the behaviour on malformed payloads is unspecified.
- Navigation away from the wheels: both back buttons are links to "/" whose click handler is `clearPlayers` (newer wheel) or `resetGame` (older wheel). `BackClicked` models only that handler's state change and publish; the unmount that follows a plain click is not modelled, so the component stays mounted in the model.
- Real time: delays are carried as numbers on pending timers, and the environment chooses which pending timer or interval fires next. Callbacks firing after unmount are not modelled.
- Wheel.OnWinner: requires at least one player in the ref; with none, the handler computes `360 / 0` and a NaN target, which the code does not handle.
- WheelGeometry.SliceAngle: uses exact reals, so JavaScript's floating-point rounding of `360 / N` is not modelled.
- SVG geometry (arc endpoints through `Math.cos`/`Math.sin`, `largeArcFlag`, hue strings, label placement) and framer-motion durations and easing: rendering only.
- The older wheel draws its slices with `360 / N` for every N; its slice drawing is rendering only and not modelled.
- `src/App.tsx` (routing), `StartGame.tsx`, `UseInputForm.tsx`, `RockPaperScissorsButtons.tsx`, `PlayRockPaperScissors.tsx` are presentation; the StartGame button's trim guard is folded into `Rps.StartAllowed`, and the panel rule of PlayRockPaperScissors is `Rps.PanelOf`.
- The composed component passes `setCountdown` to DisplayResults although its props type does not declare it; TypeScript would reject that; the model follows JavaScript semantics, under which the prop is ignored.
- Rps.SendMove: neither component limits a player to one move per round: neither hides the move buttons or checks `move` before publishing, so the model publishes on every visible click (`RpsProperties.MoveCanBeResent`) and leaves at most one counted move per round to the server, which is not part of this model.
- The `GameState` enum and `GameResult` type files are not part of this model; the enum is `Rps.Phase` and the record is `Rps.GameResult`.

## Findings

| source | as written | input that shows it | evidently intended | confidence | as-written member | corrected member |
|---|---|---|---|---|---|---|
| src/components/RockPaperScissors/DisplayResults.tsx:33-37 | play-again clears move and result but leaves the countdown at 0, although the parent passes a `setCountdown` setter for it (src/components/RockPaperScissors/RockPaperScissors.tsx:90) | connected player "ann": start, choose rock, one result message, three ticks, play again, start: the PLAYING screen shows "Revealing!" and no move can be chosen | play-again also resets the countdown to null so the next round offers the move buttons | not executed; medium (the same omission is in the single-file component) | RpsProperties.SecondRoundHasNoButtons | RpsProperties.PlayAgainResettingCountdown |
| src/components/SpinTheWheel/SpinTheWheel.tsx:57-62 | the final rotation brings the winner's slice centre to angle 0 of the drawing frame, which is 3 o'clock, while the ▼ arrow is drawn before the wheel | players A, B, C and winner "B" with the arrow at 12 o'clock: the wheel stops with "A" under the arrow | the winner's slice centre stops under the arrow | not executed; low (the stylesheet placing the arrow is not part of this model) | WheelGeometry.TopArrowMissesWinner | WheelGeometry.AimedRotation |

The corrected play-again is proved to restore the move buttons in `RpsProperties.CorrectedSecondRoundHasButtons`; the aimed rotation is proved to stop the winner's slice under a pointer at any angle in `WheelGeometry.AimedLandsOnWinner`. `Rps.Step` and `Wheel.OnWinner` model the components as written.

=== FILE: js_text.dfy ===
/** JavaScript's `String.prototype.trim`, which both wheels and the composed
    Rock-Paper-Scissors start form use to reject blank names. */
module JsText {

  /** ECMAScript WhiteSpace and LineTerminator code points: what `trim` strips. */
  predicate IsWhitespace(c: char) {
    || c == '\t' || c == '\n' || c == '\U{000B}' || c == '\U{000C}' || c == '\r'
    || c == ' ' || c == '\U{00A0}' || c == '\U{1680}'
    || ('\U{2000}' <= c <= '\U{200A}')
    || c == '\U{2028}' || c == '\U{2029}' || c == '\U{202F}' || c == '\U{205F}'
    || c == '\U{3000}' || c == '\U{FEFF}'
  }

  /** Every character of `s` is whitespace (vacuously so for ""). */
  predicate AllWhitespace(s: string) {
    forall i :: 0 <= i < |s| ==> IsWhitespace(s[i])
  }

  /** Drops the leading whitespace: the result is the suffix of `s` starting at
      its first non-whitespace character. */
  function TrimStart(s: string): (r: string)
    ensures |r| <= |s| && r == s[|s| - |r|..]
    ensures AllWhitespace(s[..|s| - |r|])
    ensures r == [] || !IsWhitespace(r[0])
  {
    if |s| > 0 && IsWhitespace(s[0]) then
      var r := TrimStart(s[1..]);
      assert s[1..][..|s| - 1 - |r|] == s[1..|s| - |r|];
      r
    else s
  }

  /** Drops the trailing whitespace: the result is the prefix of `s` ending at
      its last non-whitespace character. */
  function TrimEnd(s: string): (r: string)
    ensures |r| <= |s| && r == s[..|r|]
    ensures AllWhitespace(s[|r|..])
    ensures r == [] || !IsWhitespace(r[|r| - 1])
  {
    if |s| > 0 && IsWhitespace(s[|s| - 1]) then
      var r := TrimEnd(s[..|s| - 1]);
      assert s[..|s| - 1][|r|..] == s[|r|..|s| - 1];
      r
    else s
  }

  /** `s.trim()`. */
  function Trim(s: string): (r: string)
    ensures |r| <= |s|
    ensures r == [] || (!IsWhitespace(r[0]) && !IsWhitespace(r[|r| - 1]))
    ensures exists i :: 0 <= i <= |s| - |r| && r == s[i..i + |r|] &&
                        AllWhitespace(s[..i]) && AllWhitespace(s[i + |r|..])
  {
    var a := TrimStart(s);
    var b := TrimEnd(a);
    var i := |s| - |a|;
    assert s[i..] == a;
    assert b == s[i..i + |b|];
    assert s[i + |b|..] == a[|b|..];
    assert AllWhitespace(s[..i]) && AllWhitespace(s[i + |b|..]);
    b
  }

  /** `s.trim() === ""`, the guard both `joinGame` handlers test. */
  predicate IsBlank(s: string) {
    Trim(s) == ""
  }

  /** A string trims to "" exactly when it holds nothing but whitespace. */
  lemma BlankIffAllWhitespace(s: string)
    ensures IsBlank(s) <==> AllWhitespace(s)
  {
  }

  /** The trim guard is at least as strict as JavaScript truthiness: "" is
      blank, and a non-blank string is non-empty. */
  lemma NonBlankIsNonEmpty(s: string)
    ensures IsBlank("")
    ensures !IsBlank(s) ==> s != ""
  {
  }
}

=== FILE: legacy_wheel.dfy ===
/** The older Spin-The-Wheel component: a fixed ten-turn spin with no aiming,
    a single three-second timer per result, and a local-only reset. */
module LegacyWheel {
  import opened Options
  import opened Outbound
  import JsText
  import Lobby

  /** The rotation the wheel is animated to while spinning: ten full turns. */
  const SpinRotation: real := 3600.0

  /** React state; `pending` holds the body of each result whose timer has not fired. */
  datatype LegacyView = LegacyView(
    hasClient: bool,
    players: seq<string>,
    winner: Option<string>,
    spinning: bool,
    username: string,
    pending: seq<string>)

  datatype Event =
    | NameEdited(text: string)
    | PlayersArrived(names: seq<string>)
    | WinnerArrived(name: string)
    | TimerFired(k: nat)
    | JoinClicked
    | SpinClicked
    | BackClicked

  datatype Outcome = Outcome(view: LegacyView, sent: seq<Message>)

  function Init(hasClient: bool): (v: LegacyView)
    ensures v.players == [] && v.winner == None && !v.spinning && v.username == "" && v.pending == []
  {
    LegacyView(hasClient, [], None, false, "", [])
  }

  /** `resetGame`: empties the pool, forgets the winner and stops spinning;
      nothing is published and pending timers stay scheduled. */
  function ResetGame(v: LegacyView): (r: LegacyView)
    ensures r.players == [] && r.winner == None && !r.spinning
    ensures r.username == v.username && r.pending == v.pending && r.hasClient == v.hasClient
  {
    v.(players := [], winner := None, spinning := false)
  }

  /** A `/topic/players` message replaces the pool wholesale. */
  function OnPlayers(v: LegacyView, names: seq<string>): (r: LegacyView)
    ensures r.players == names
    ensures r.(players := v.players) == v
  {
    v.(players := names)
  }

  /** A `/topic/wheel-results` message starts the spin and schedules the reveal. */
  function OnWinner(v: LegacyView, name: string): (r: LegacyView)
    ensures r.spinning
    ensures r.pending == v.pending + [name]
    ensures r.players == v.players && r.winner == v.winner && r.username == v.username
    ensures r.hasClient == v.hasClient
  {
    v.(spinning := true, pending := v.pending + [name])
  }

  /** The pending timer `k` fires: its body becomes the winner and the spin stops. */
  function Fire(v: LegacyView, k: nat): (r: LegacyView)
    ensures k >= |v.pending| ==> r == v
    ensures k < |v.pending| ==>
              r.winner == Some(v.pending[k]) && !r.spinning &&
              r.pending == v.pending[..k] + v.pending[k + 1..]
    ensures r.players == v.players && r.username == v.username && r.hasClient == v.hasClient
  {
    if k >= |v.pending| then v
    else v.(winner := Some(v.pending[k]), spinning := false, pending := v.pending[..k] + v.pending[k + 1..])
  }

  /** `animate={{ rotate: spinning ? 3600 : 0 }}`. */
  function TargetRotation(v: LegacyView): (deg: real)
    ensures deg == 0.0 || deg == SpinRotation
    ensures deg != 0.0 <==> v.spinning
  {
    if v.spinning then SpinRotation else 0.0
  }

  /** The rotation depends on nothing but the spinning flag: not on the winner
      nor on the pool, and both targets are whole turns, so the old wheel always
      comes to rest in its starting orientation. */
  lemma RotationIgnoresWinner(v: LegacyView, w: Option<string>, ps: seq<string>)
    ensures TargetRotation(v.(winner := w, players := ps)) == TargetRotation(v)
    ensures TargetRotation(v) == 0.0 * 360.0 || TargetRotation(v) == 10.0 * 360.0
  {
  }

  function Step(v: LegacyView, e: Event): (r: Outcome)
    ensures !e.JoinClicked? && !e.SpinClicked? ==> r.sent == []
  {
    match e
    case NameEdited(text) => Outcome(v.(username := text), [])
    case PlayersArrived(names) => Outcome(OnPlayers(v, names), [])
    case WinnerArrived(name) => Outcome(OnWinner(v, name), [])
    case TimerFired(k) => Outcome(Fire(v, k), [])
    case JoinClicked =>
      var j := Lobby.Join(v.hasClient, v.username);
      Outcome(v.(username := j.username), j.sent)
    case SpinClicked => Outcome(v, Lobby.Spin(v.hasClient, v.players))
    case BackClicked => Outcome(ResetGame(v), [])
  }

  /** The join and spin buttons publish under the same guards as the newer
      wheel; unlike it, the spin button is never disabled. */
  lemma ControlsPublishWhen(v: LegacyView)
    ensures Step(v, JoinClicked).sent != [] <==> v.hasClient && !JsText.IsBlank(v.username)
    ensures Step(v, JoinClicked).sent != [] ==> Step(v, JoinClicked).view.username == ""
    ensures Step(v, SpinClicked).sent != [] <==> v.hasClient && v.players != []
    ensures Step(v, SpinClicked).view == v
  {
  }

  /** A result message followed by its timer leaves the body as winner and the
      wheel at rest, whatever the pool holds. */
  lemma SpinThenReveal(v: LegacyView, name: string)
    ensures var v2 := Fire(OnWinner(v, name), |v.pending|);
            v2.winner == Some(name) && !v2.spinning && TargetRotation(v2) == 0.0 &&
            v2.pending == v.pending && v2.players == v.players
  {
  }
}

=== FILE: lobby.dfy ===
/** The `joinGame` and `startWheel` handlers, written identically in both
    Spin-The-Wheel components. */
module Lobby {
  import opened Outbound
  import JsText

  /** What `joinGame` leaves behind: the input box's new text and the frames it published. */
  datatype JoinOutcome = JoinOutcome(username: string, sent: seq<Message>)

  /** `joinGame`: with a client and a name that is not blank, publish the name
      exactly as typed (untrimmed) to `/app/join` and clear the input box;
      otherwise change nothing. */
  function Join(hasClient: bool, username: string): (r: JoinOutcome)
    ensures r.sent != [] <==> hasClient && !JsText.IsBlank(username)
    ensures r.sent != [] ==> r.sent == [Publish(JoinDestination, Text(username))] && r.username == ""
    ensures r.sent == [] ==> r.username == username
  {
    if hasClient && !JsText.IsBlank(username) then
      JoinOutcome("", [Publish(JoinDestination, Text(username))])
    else
      JoinOutcome(username, [])
  }

  /** A join is published exactly when the name holds a character `trim` would keep. */
  lemma JoinNeedsVisibleCharacter(hasClient: bool, username: string)
    ensures Join(hasClient, username).sent != [] <==>
            hasClient && exists i :: 0 <= i < |username| && !JsText.IsWhitespace(username[i])
  {
  }

  /** Pressing "Join Game" twice joins once: the first join clears the box. */
  lemma JoinTwiceSendsOnce(hasClient: bool, username: string)
    ensures Join(hasClient, Join(hasClient, username).username).sent == []
  {
  }

  /** `startWheel`: with a client and a non-empty player list, publish an
      empty-bodied `/app/spin`; the component's state is not touched. */
  function Spin(hasClient: bool, players: seq<string>): (sent: seq<Message>)
    ensures |sent| <= 1
    ensures sent != [] <==> hasClient && players != []
    ensures forall i :: 0 <= i < |sent| ==> sent[i] == Publish(SpinDestination, Text(""))
  {
    if hasClient && |players| > 0 then [Publish(SpinDestination, Text(""))] else []
  }
}

=== FILE: options.dfy ===
/** The `T | null` values the components keep in React state. */
module Options {

  datatype Option<+T> = None | Some(value: T)
}

=== FILE: outbound.dfy ===
/** STOMP frames the components publish, kept as abstract values instead of I/O. */
module Outbound {

  /** The body of a published frame. `PlayJson` stands for `JSON.stringify({player, choice})`. */
  datatype Body = Text(text: string) | PlayJson(player: string, choice: string)

  datatype Message = Publish(destination: string, body: Body)

  const JoinDestination: string := "/app/join"
  const SpinDestination: string := "/app/spin"
  const ClearPlayersDestination: string := "/app/clear-players"
  const PlayDestination: string := "/app/play"
}

=== FILE: rps.dfy ===
/** The Rock-Paper-Scissors view-state machine. Two components implement it:
    the single-file one (everything inline) and the composed one (wired
    through StartGame, PlayRockPaperScissors and DisplayResults). They differ
    only in the start guard, which `Variant` selects. */
module Rps {
  import opened Options
  import opened Outbound
  import JsText

  datatype Move = Rock | Paper | Scissors

  /** The choice string a move button passes to `sendMove`. */
  function MoveName(m: Move): (name: string)
    ensures name == "rock" <==> m == Rock
    ensures name == "paper" <==> m == Paper
    ensures name == "scissors" <==> m == Scissors
  {
    match m
    case Rock => "rock"
    case Paper => "paper"
    case Scissors => "scissors"
  }

  /** One resolved round as the server reports it on `/topic/game-results`. */
  datatype GameResult = GameResult(player1: string, move1: string, player2: string, move2: string, winner: string)

  /** WAITING, PLAYING and RESULT. */
  datatype Phase = Waiting | Playing | Result

  /** A running `setInterval` with its own closure counter and the message it will reveal. */
  datatype Interval = Interval(counter: int, payload: GameResult)

  datatype RpsView = RpsView(
    connected: bool,
    username: string,
    move: Option<Move>,
    result: Option<GameResult>,
    countdown: Option<int>,
    phase: Phase,
    intervals: seq<Interval>)

  /** Single-file component, or the one composed from StartGame and DisplayResults. */
  datatype Variant = Inline | Composed

  datatype Event =
    | NameEdited(text: string)
    | StartClicked
    | MoveClicked(m: Move)
    | ResultArrived(g: GameResult)
    | IntervalTick(k: nat)
    | PlayAgainClicked
    | ConnectionChanged(up: bool)

  datatype Outcome = Outcome(view: RpsView, sent: seq<Message>)

  /** Value the countdown starts from on each result message. */
  const CountdownStart: int := 3

  function Init(connected: bool): (v: RpsView)
    ensures v.phase == Waiting && v.move == None && v.result == None && v.countdown == None
    ensures v.username == "" && v.intervals == []
  {
    RpsView(connected, "", None, None, None, Waiting, [])
  }

  /** The reachable shape of the state: the countdown and every interval
      counter stay within 0..3 (counters within 1..3), and RESULT always has a
      result to show. */
  predicate Valid(v: RpsView) {
    && (v.countdown == None || 0 <= v.countdown.value <= CountdownStart)
    && (forall i :: 0 <= i < |v.intervals| ==> 1 <= v.intervals[i].counter <= CountdownStart)
    && (v.phase == Result ==> v.result != None)
  }

  /** Whether the start button is enabled and its handler proceeds. The inline
      component tests only that the name is non-empty; the composed one also
      disables the button when the trimmed name is empty, which admits exactly
      the names with a character outside the JavaScript whitespace set. */
  predicate StartAllowed(variant: Variant, username: string): (ok: bool)
    ensures ok ==> username != ""
    ensures variant == Inline ==> (ok <==> username != "")
    ensures variant == Composed ==>
              (ok <==> !JsText.AllWhitespace(username))
  {
    JsText.BlankIffAllWhitespace(username);
    match variant
    case Inline => username != ""
    case Composed => username != "" && !JsText.IsBlank(username)
  }

  /** The start button's handler: WAITING to PLAYING when allowed. */
  function Start(v: RpsView, variant: Variant): (r: RpsView)
    ensures StartAllowed(variant, v.username) ==> r == v.(phase := Playing)
    ensures !StartAllowed(variant, v.username) ==> r == v
  {
    if StartAllowed(variant, v.username) then v.(phase := Playing) else v
  }

  /** `sendMove`: with a connected client and a non-empty name, record the move,
      enter PLAYING and publish `{player, choice}` to `/app/play`; otherwise only
      an error is logged. */
  function SendMove(v: RpsView, m: Move): (r: Outcome)
    ensures r.sent != [] <==> v.connected && v.username != ""
    ensures r.sent != [] ==>
              r.view == v.(move := Some(m), phase := Playing) &&
              r.sent == [Publish(PlayDestination, PlayJson(v.username, MoveName(m)))]
    ensures r.sent == [] ==> r.view == v
  {
    if v.connected && v.username != "" then
      Outcome(v.(move := Some(m), phase := Playing),
              [Publish(PlayDestination, PlayJson(v.username, MoveName(m)))])
    else Outcome(v, [])
  }

  /** A `/topic/game-results` message: show 3, enter PLAYING and start a new
      interval holding the message. */
  function OnResult(v: RpsView, g: GameResult): (r: RpsView)
    ensures r.countdown == Some(CountdownStart) && r.phase == Playing
    ensures r.intervals == v.intervals + [Interval(CountdownStart, g)]
    ensures r.result == v.result && r.move == v.move && r.username == v.username
    ensures r.connected == v.connected
  {
    v.(countdown := Some(CountdownStart), phase := Playing,
       intervals := v.intervals + [Interval(CountdownStart, g)])
  }

  /** Interval `k` ticks: its counter drops by one and is shown; at zero the
      interval is cleared, its result stored and RESULT entered. */
  function Tick(v: RpsView, k: nat): (r: RpsView)
    ensures k >= |v.intervals| ==> r == v
    ensures k < |v.intervals| ==> r.countdown == Some(v.intervals[k].counter - 1)
    ensures k < |v.intervals| && v.intervals[k].counter == 1 ==>
              r.phase == Result && r.result == Some(v.intervals[k].payload) &&
              r.intervals == v.intervals[..k] + v.intervals[k + 1..]
    ensures k < |v.intervals| && v.intervals[k].counter != 1 ==>
              r.phase == v.phase && r.result == v.result && |r.intervals| == |v.intervals| &&
              r.intervals[k] == v.intervals[k].(counter := v.intervals[k].counter - 1) &&
              (forall i :: 0 <= i < |v.intervals| && i != k ==> r.intervals[i] == v.intervals[i])
    ensures r.move == v.move && r.username == v.username && r.connected == v.connected
  {
    if k >= |v.intervals| then v
    else
      var c := v.intervals[k].counter - 1;
      if c == 0 then
        v.(countdown := Some(0), result := Some(v.intervals[k].payload), phase := Result,
           intervals := v.intervals[..k] + v.intervals[k + 1..])
      else
        v.(countdown := Some(c), intervals := v.intervals[k := Interval(c, v.intervals[k].payload)])
  }

  /** "Play Again": back to WAITING with move and result cleared. The countdown
      is not reset (neither component's handler touches it). */
  function PlayAgain(v: RpsView): (r: RpsView)
    ensures r.phase == Waiting && r.result == None && r.move == None
    ensures r.countdown == v.countdown && r.username == v.username
    ensures r.intervals == v.intervals && r.connected == v.connected
  {
    v.(phase := Waiting, result := None, move := None)
  }

  /** What the PLAYING screen shows below the chosen move. */
  datatype PlayingPanel = MoveButtons | CountdownNumber(n: int) | Revealing

  /** Buttons while the countdown is null; otherwise the number, or
      "Revealing!" once it is not positive. */
  function PanelOf(countdown: Option<int>): (p: PlayingPanel)
    ensures p == MoveButtons <==> countdown == None
    ensures p.CountdownNumber? <==> countdown != None && countdown.value > 0
    ensures p.CountdownNumber? ==> p.n == countdown.value
  {
    match countdown
    case None => MoveButtons
    case Some(n) => if n > 0 then CountdownNumber(n) else Revealing
  }

  /** The move buttons are on screen. */
  predicate MoveButtonsShown(v: RpsView): (shown: bool)
    ensures shown <==> v.phase == Playing && v.countdown == None
  {
    v.phase == Playing && PanelOf(v.countdown) == MoveButtons
  }

  /** The result panel, with its play-again button, is on screen. */
  predicate ResultShown(v: RpsView): (shown: bool)
    ensures shown ==> v.phase == Result
    ensures Valid(v) ==> (shown <==> v.phase == Result)
  {
    v.phase == Result && v.result != None
  }

  /** One event. A control that is not on screen cannot be clicked, so clicking
      it changes nothing. */
  function Step(v: RpsView, variant: Variant, e: Event): (r: Outcome)
    ensures !e.MoveClicked? ==> r.sent == []
    ensures e.MoveClicked? && !MoveButtonsShown(v) ==> r == Outcome(v, [])
  {
    match e
    case NameEdited(text) => Outcome(if v.phase == Waiting then v.(username := text) else v, [])
    case StartClicked => Outcome(if v.phase == Waiting then Start(v, variant) else v, [])
    case MoveClicked(m) => if MoveButtonsShown(v) then SendMove(v, m) else Outcome(v, [])
    case ResultArrived(g) => Outcome(OnResult(v, g), [])
    case IntervalTick(k) => Outcome(Tick(v, k), [])
    case PlayAgainClicked => Outcome(if ResultShown(v) then PlayAgain(v) else v, [])
    case ConnectionChanged(up) => Outcome(v.(connected := up), [])
  }
}

=== FILE: rps_properties.dfy ===
/** Properties of the Rock-Paper-Scissors machine that span several events. */
module RpsProperties {
  import opened Options
  import opened Rps
  import Outbound
  import JsText

  /** The machine starts in a valid state. */
  lemma InitValid(connected: bool)
    ensures Valid(Init(connected))
  {
  }

  /** Every event keeps the state valid: in particular the countdown never
      leaves {0, 1, 2, 3}. */
  lemma StepPreservesValid(v: RpsView, variant: Variant, e: Event)
    requires Valid(v)
    ensures Valid(Step(v, variant, e).view)
  {
  }

  /** The reveal waits for the full countdown: after the first and second tick
      the machine still shows 2 and 1 in PLAYING with the old result; the third
      tick shows 0, stores the message's result, enters RESULT and clears the
      interval. */
  lemma RevealOnThirdTick(v: RpsView, g: GameResult)
    ensures var n := |v.intervals|;
            var v0 := OnResult(v, g);
            var v1 := Tick(v0, n);
            var v2 := Tick(v1, n);
            var v3 := Tick(v2, n);
            && v1.phase == Playing && v1.result == v.result && v1.countdown == Some(2)
            && v2.phase == Playing && v2.result == v.result && v2.countdown == Some(1)
            && v3.phase == Result && v3.result == Some(g) && v3.countdown == Some(0)
            && v3.intervals == v.intervals
  {
  }

  /** The only way into RESULT is the tick that takes an interval's counter
      from 1 to 0; it brings that interval's result with it. */
  lemma OnlyFinalTickEntersResult(v: RpsView, variant: Variant, e: Event)
    requires v.phase != Result
    requires Step(v, variant, e).view.phase == Result
    ensures e.IntervalTick? && e.k < |v.intervals| && v.intervals[e.k].counter == 1
    ensures Step(v, variant, e).view.result == Some(v.intervals[e.k].payload)
  {
  }

  /** Play-again is idempotent. */
  lemma PlayAgainIdempotent(v: RpsView)
    ensures PlayAgain(PlayAgain(v)) == PlayAgain(v)
  {
  }

  /** Play-again yields the same screen whatever result was being shown. */
  lemma PlayAgainForgetsResult(v: RpsView, g: GameResult)
    ensures PlayAgain(v.(result := Some(g))) == PlayAgain(v)
  {
  }

  /** The start guards differ on a whitespace-only name: the inline component
      starts the game, the composed one keeps its start button disabled. */
  lemma WhitespaceNameStartsOnlyInline(v: RpsView)
    requires v.phase == Waiting
    requires v.username != "" && JsText.AllWhitespace(v.username)
    ensures Step(v, Inline, StartClicked).view.phase == Playing
    ensures Step(v, Composed, StartClicked).view == v
  {
  }

  /** The composed start guard is exactly the trim guard: `username &&` adds
      nothing once the trimmed name is non-empty. */
  lemma ComposedGuardIsTrimGuard(username: string)
    ensures StartAllowed(Composed, username) <==> !JsText.IsBlank(username)
  {
    JsText.NonBlankIsNonEmpty(username);
  }

  /** Both components start on any name with a non-whitespace character. */
  lemma VisibleNameStartsBoth(v: RpsView, variant: Variant)
    requires v.phase == Waiting
    requires exists i :: 0 <= i < |v.username| && !JsText.IsWhitespace(v.username[i])
    ensures Step(v, variant, StartClicked).view == v.(phase := Playing)
  {
  }

  /** Nothing limits a player to one move per round: the buttons stay on
      screen after a move until a result message sets the countdown, so a
      second click publishes a second `/app/play` frame. */
  lemma MoveCanBeResent(v: RpsView, variant: Variant, m: Move, m': Move)
    requires MoveButtonsShown(v) && v.connected && v.username != ""
    ensures var o1 := Step(v, variant, MoveClicked(m));
            var o2 := Step(o1.view, variant, MoveClicked(m'));
            && o1.sent != [] && MoveButtonsShown(o1.view)
            && o2.sent == [Outbound.Publish(Outbound.PlayDestination, Outbound.PlayJson(v.username, MoveName(m')))]
            && o2.view.move == Some(m')
  {
  }

  /** With no other interval running, a result message and three ticks of its
      interval reveal the result and leave everything else as it was. */
  lemma CountdownRunsOut(v: RpsView, variant: Variant, g: GameResult)
    requires v.intervals == []
    ensures var v3 := Step(v, variant, ResultArrived(g)).view;
            var v4 := Step(v3, variant, IntervalTick(0)).view;
            var v5 := Step(v4, variant, IntervalTick(0)).view;
            Step(v5, variant, IntervalTick(0)).view == v.(phase := Result, result := Some(g), countdown := Some(0))
  {
    var v3 := OnResult(v, g);
    assert v3 == v.(phase := Playing, countdown := Some(3), intervals := [Interval(3, g)]);
    var v4 := Tick(v3, 0);
    assert v4 == v.(phase := Playing, countdown := Some(2), intervals := [Interval(2, g)]);
    var v5 := Tick(v4, 0);
    assert v5 == v.(phase := Playing, countdown := Some(1), intervals := [Interval(1, g)]);
  }

  /** One complete round from a fresh WAITING screen: start, choose a move,
      receive the result and let the countdown run out. It ends in RESULT
      showing that result, with the move kept and the countdown at 0. */
  lemma FullRound(v: RpsView, variant: Variant, m: Move, g: GameResult)
    requires v.phase == Waiting && v.countdown == None && v.intervals == []
    requires v.connected && StartAllowed(variant, v.username)
    ensures var v1 := Step(v, variant, StartClicked).view;
            var o2 := Step(v1, variant, MoveClicked(m));
            var v3 := Step(o2.view, variant, ResultArrived(g)).view;
            var v4 := Step(v3, variant, IntervalTick(0)).view;
            var v5 := Step(v4, variant, IntervalTick(0)).view;
            var v6 := Step(v5, variant, IntervalTick(0)).view;
            && MoveButtonsShown(v1)
            && o2.sent == [Outbound.Publish(Outbound.PlayDestination, Outbound.PlayJson(v.username, MoveName(m)))]
            && v6 == v.(phase := Result, move := Some(m), result := Some(g), countdown := Some(0))
  {
    var v1 := Step(v, variant, StartClicked).view;
    assert v1 == v.(phase := Playing);
    var v2 := Step(v1, variant, MoveClicked(m)).view;
    assert v2 == v.(phase := Playing, move := Some(m));
    CountdownRunsOut(v2, variant, g);
  }

  /** Because play-again leaves the countdown at 0, a second round cannot be
      played: after one full round and a restart, the PLAYING screen shows
      "Revealing!" instead of the move buttons and clicking a move publishes
      nothing. */
  lemma SecondRoundHasNoButtons(v: RpsView, variant: Variant, m: Move, m': Move, g: GameResult)
    requires v.phase == Waiting && v.countdown == None && v.intervals == []
    requires v.connected && StartAllowed(variant, v.username)
    ensures var v1 := Step(v, variant, StartClicked).view;
            var o2 := Step(v1, variant, MoveClicked(m));
            var v3 := Step(o2.view, variant, ResultArrived(g)).view;
            var v4 := Step(v3, variant, IntervalTick(0)).view;
            var v5 := Step(v4, variant, IntervalTick(0)).view;
            var v6 := Step(v5, variant, IntervalTick(0)).view;
            var v7 := Step(v6, variant, PlayAgainClicked).view;
            var v8 := Step(v7, variant, StartClicked).view;
            && MoveButtonsShown(v1) && o2.sent != []
            && ResultShown(v6) && v6.result == Some(g)
            && v8.phase == Playing && PanelOf(v8.countdown) == Revealing
            && Step(v8, variant, MoveClicked(m')) == Outcome(v8, [])
  {
    FullRound(v, variant, m, g);
    var v6 := v.(phase := Result, move := Some(m), result := Some(g), countdown := Some(0));
    var v7 := Step(v6, variant, PlayAgainClicked).view;
    assert v7 == v.(move := None, result := None, countdown := Some(0));
    var v8 := Step(v7, variant, StartClicked).view;
    assert v8 == v7.(phase := Playing);
    assert !MoveButtonsShown(v8);
    assert Step(v8, variant, MoveClicked(m')) == Outcome(v8, []);
  }

  /** Play-again as the composed component evidently meant it: it hands
      DisplayResults a `setCountdown` setter, which would put the countdown
      back to null. */
  function PlayAgainResettingCountdown(v: RpsView): (r: RpsView)
    ensures PlayAgain(v) == r.(countdown := v.countdown)
    ensures r.countdown == None && PanelOf(r.countdown) == MoveButtons
  {
    v.(phase := Waiting, result := None, move := None, countdown := None)
  }

  /** With the corrected play-again, the second round offers the move buttons
      again and a click publishes the move. */
  lemma CorrectedSecondRoundHasButtons(v: RpsView, variant: Variant, m: Move, m': Move, g: GameResult)
    requires v.phase == Waiting && v.countdown == None && v.intervals == []
    requires v.connected && StartAllowed(variant, v.username)
    ensures var v1 := Step(v, variant, StartClicked).view;
            var v2 := Step(v1, variant, MoveClicked(m)).view;
            var v3 := Step(v2, variant, ResultArrived(g)).view;
            var v4 := Step(v3, variant, IntervalTick(0)).view;
            var v5 := Step(v4, variant, IntervalTick(0)).view;
            var v6 := Step(v5, variant, IntervalTick(0)).view;
            var v7 := PlayAgainResettingCountdown(v6);
            var v8 := Step(v7, variant, StartClicked).view;
            && ResultShown(v6)
            && v8.phase == Playing && MoveButtonsShown(v8)
            && Step(v8, variant, MoveClicked(m')).sent != []
  {
    FullRound(v, variant, m, g);
  }
}

=== FILE: wheel.dfy ===
/** The newer Spin-The-Wheel component: the player pool mirrored from
    `/topic/players`, the spin-and-settle reaction to `/topic/wheel-results`,
    and the join, spin and back-to-menu controls. */
module Wheel {
  import opened Options
  import opened Outbound
  import JsText
  import Lobby
  import G = WheelGeometry

  /** The effect a scheduled `setTimeout` callback has when it fires. */
  datatype TimerAction = ShowWinner(name: string) | ResetWheel

  /** A pending `setTimeout`: its delay (ms after the message) and its callback. */
  datatype Timer = Timer(delay: real, action: TimerAction)

  /** The component's React state plus the callbacks still waiting to fire.
      `playersRef` is the ref the winner handler reads; an effect copies
      `players` into it only after React has re-rendered. */
  datatype WheelView = WheelView(
    hasClient: bool,
    players: seq<string>,
    playersRef: seq<string>,
    winner: Option<string>,
    username: string,
    rotation: real,
    spinning: bool,
    timers: seq<Timer>)

  /** What can happen to the component: user input, a message on a topic, a timer firing. */
  datatype Event =
    | NameEdited(text: string)
    | PlayersArrived(names: seq<string>)
    | WinnerArrived(name: string)
    | TimerFired(k: nat)
    | JoinClicked
    | SpinClicked
    | BackClicked
    | Rendered

  datatype Outcome = Outcome(view: WheelView, sent: seq<Message>)

  /** The state on mount; `hasClient` says whether the STOMP client has been created yet. */
  function Init(hasClient: bool): (v: WheelView)
    ensures v.players == [] && v.playersRef == [] && v.winner == None && v.username == ""
    ensures v.rotation == 0.0 && !v.spinning && v.timers == []
  {
    WheelView(hasClient, [], [], None, "", 0.0, false, [])
  }

  /** A `/topic/players` message: the decoded list replaces the local one wholesale. */
  function OnPlayers(v: WheelView, names: seq<string>): (r: WheelView)
    ensures r.players == names
    ensures r.(players := v.players) == v
  {
    v.(players := names)
  }

  /** The effect that runs after a re-render: the ref catches up with `players`. */
  function SyncRef(v: WheelView): (r: WheelView)
    ensures r.playersRef == v.players
    ensures r.(playersRef := v.playersRef) == v
  {
    v.(playersRef := v.players)
  }

  /** A `/topic/wheel-results` message: aim at the winner's slice centre in the
      list the ref holds, start spinning, and schedule the winner reveal and the
      reset. An empty list is excluded: the handler would divide by zero. */
  function OnWinner(v: WheelView, name: string): (r: WheelView)
    requires |v.playersRef| >= 1
    ensures r.spinning
    ensures G.FullTurn * (G.FullSpins as real) < r.rotation < G.FullTurn * ((G.FullSpins + 1) as real)
    ensures G.SliceOf(|v.playersRef|, G.LandedAngle(r.rotation, 0.0)) == G.WinningIndex(v.playersRef, name)
    ensures G.LandedAngle(r.rotation, 0.0) == G.TargetAngle(|v.playersRef|, G.WinningIndex(v.playersRef, name))
    ensures name !in v.playersRef ==> G.SliceOf(|v.playersRef|, G.LandedAngle(r.rotation, 0.0)) == 0
    ensures |r.timers| == |v.timers| + 2 && r.timers[..|v.timers|] == v.timers
    ensures r.timers[|v.timers|].action == ShowWinner(name)
    ensures r.timers[|v.timers|].delay == G.RevealDelay(G.TargetAngle(|v.playersRef|, G.WinningIndex(v.playersRef, name)))
    ensures r.timers[|v.timers| + 1] == Timer(G.ResetDelay, ResetWheel)
    ensures 0.0 < r.timers[|v.timers|].delay < r.timers[|v.timers| + 1].delay
    ensures r.players == v.players && r.playersRef == v.playersRef
    ensures r.winner == v.winner && r.username == v.username && r.hasClient == v.hasClient
  {
    var n := |v.playersRef|;
    var idx := G.WinningIndex(v.playersRef, name);
    var t := G.TargetAngle(n, idx);
    G.LandsOnWinner(v.playersRef, name);
    G.RevealBeforeReset(t);
    v.(spinning := true,
       rotation := G.FinalRotation(t),
       timers := v.timers + [Timer(G.RevealDelay(t), ShowWinner(name)), Timer(G.ResetDelay, ResetWheel)])
  }

  /** The pending timer `k` fires and is discarded; an index with no timer changes nothing. */
  function Fire(v: WheelView, k: nat): (r: WheelView)
    ensures k >= |v.timers| ==> r == v
    ensures k < |v.timers| ==> r.timers == v.timers[..k] + v.timers[k + 1..]
    ensures k < |v.timers| && v.timers[k].action.ShowWinner? ==>
              r.winner == Some(v.timers[k].action.name) &&
              r.rotation == v.rotation && r.spinning == v.spinning
    ensures k < |v.timers| && v.timers[k].action.ResetWheel? ==>
              r.rotation == 0.0 && !r.spinning && r.winner == v.winner
    ensures r.players == v.players && r.playersRef == v.playersRef
    ensures r.username == v.username && r.hasClient == v.hasClient
  {
    if k >= |v.timers| then v
    else
      var rest := v.timers[..k] + v.timers[k + 1..];
      match v.timers[k].action
      case ShowWinner(name) => v.(winner := Some(name), timers := rest)
      case ResetWheel => v.(rotation := 0.0, spinning := false, timers := rest)
  }

  /** `joinGame`, through the shared join guard. */
  function JoinGame(v: WheelView): (r: Outcome)
    ensures r.sent != [] <==> v.hasClient && !JsText.IsBlank(v.username)
    ensures r.sent != [] ==> r.sent == [Publish(JoinDestination, Text(v.username))] && r.view.username == ""
    ensures r.sent == [] ==> r.view == v
    ensures r.view == v.(username := r.view.username)
  {
    var j := Lobby.Join(v.hasClient, v.username);
    Outcome(v.(username := j.username), j.sent)
  }

  /** `startWheel`: publishes only over a non-empty pool and changes no state. */
  function StartWheel(v: WheelView): (r: Outcome)
    ensures r.view == v
    ensures r.sent != [] <==> v.hasClient && v.players != []
    ensures r.sent != [] ==> r.sent == [Publish(SpinDestination, Text(""))]
  {
    Outcome(v, Lobby.Spin(v.hasClient, v.players))
  }

  /** `clearPlayers`: asks the server to clear the pool when a client exists,
      and always empties the local pool and stops the wheel. Pending timers are
      not cancelled, and the ref keeps the old list until the next render. */
  function ClearPlayers(v: WheelView): (r: Outcome)
    ensures r.view.players == [] && r.view.winner == None
    ensures !r.view.spinning && r.view.rotation == 0.0
    ensures r.view.username == v.username && r.view.timers == v.timers && r.view.hasClient == v.hasClient
    ensures r.view.playersRef == v.playersRef
    ensures r.sent == if v.hasClient then [Publish(ClearPlayersDestination, Text(""))] else []
  {
    var sent := if v.hasClient then [Publish(ClearPlayersDestination, Text(""))] else [];
    Outcome(v.(players := [], winner := None, spinning := false, rotation := 0.0), sent)
  }

  /** The spin button is disabled while the wheel spins. */
  predicate SpinEnabled(v: WheelView) {
    !v.spinning
  }

  /** One event. A winner message needs a non-empty list in the ref. */
  function Step(v: WheelView, e: Event): (r: Outcome)
    requires e.WinnerArrived? ==> |v.playersRef| >= 1
    ensures !e.JoinClicked? && !e.SpinClicked? && !e.BackClicked? ==> r.sent == []
    ensures e.SpinClicked? && !SpinEnabled(v) ==> r == Outcome(v, [])
  {
    match e
    case NameEdited(text) => Outcome(v.(username := text), [])
    case PlayersArrived(names) => Outcome(OnPlayers(v, names), [])
    case WinnerArrived(name) => Outcome(OnWinner(v, name), [])
    case TimerFired(k) => Outcome(Fire(v, k), [])
    case JoinClicked => JoinGame(v)
    case SpinClicked => if SpinEnabled(v) then StartWheel(v) else Outcome(v, [])
    case BackClicked => ClearPlayers(v)
    case Rendered => Outcome(SyncRef(v), [])
  }

  /** Latest snapshot wins: a second players message erases every trace of the first. */
  lemma LatestSnapshotWins(v: WheelView, a: seq<string>, b: seq<string>)
    ensures OnPlayers(OnPlayers(v, a), b) == OnPlayers(v, b)
  {
  }

  /** The spin button's request depends on the pool: once back-to-menu has
      emptied it, spinning asks for nothing, and while it holds names a second
      press sends the same `/app/spin` frame again, since spinning leaves the
      state as it was. */
  lemma SpinNeedsPool(v: WheelView)
    ensures StartWheel(ClearPlayers(v).view).sent == []
    ensures StartWheel(StartWheel(v).view) == StartWheel(v)
    ensures v.hasClient && v.players != [] ==>
              StartWheel(v).sent == [Publish(SpinDestination, Text(""))]
  {
  }

  /** The full spin: the winner message, then its reveal, then its reset. The
      winner is shown while the wheel rests at the final rotation, and the
      reset returns the wheel to rest with the winner still shown. */
  lemma SpinThenSettle(v: WheelView, name: string)
    requires |v.playersRef| >= 1
    ensures var v1 := OnWinner(v, name);
            var v2 := Fire(v1, |v.timers|);
            var v3 := Fire(v2, |v.timers|);
            && v2.winner == Some(name) && v2.spinning && v2.rotation == v1.rotation
            && v3.winner == Some(name) && !v3.spinning && v3.rotation == 0.0
            && v3.players == v.players && v3.timers == v.timers
  {
  }

  /** The revealed name is the message body, even when it is absent from the
      pool and the wheel was aimed at slice 0. */
  lemma RevealShowsMessageName(v: WheelView, name: string)
    requires |v.playersRef| >= 1
    requires name !in v.playersRef
    ensures Fire(OnWinner(v, name), |v.timers|).winner == Some(name)
    ensures Fire(OnWinner(v, name), |v.timers|).winner.value !in v.playersRef
  {
  }

  /** The back link's click handler does not cancel a pending reveal: if the
      component is still mounted when it fires, it sets a winner on the emptied
      wheel. */
  lemma RevealSurvivesClear(v: WheelView, name: string)
    requires |v.playersRef| >= 1
    ensures var c := ClearPlayers(OnWinner(v, name)).view;
            c.winner == None && Fire(c, |v.timers|).winner == Some(name) &&
            Fire(c, |v.timers|).players == []
  {
  }

  /** Clearing twice is clearing once, apart from the second request sent. */
  lemma ClearIdempotent(v: WheelView)
    ensures ClearPlayers(ClearPlayers(v).view).view == ClearPlayers(v).view
  {
  }

  /** A players message is not seen by the winner handler until React has
      re-rendered: a winner arriving in between is aimed within the old list. */
  lemma WinnerSeesCommittedList(v: WheelView, names: seq<string>, name: string)
    requires |v.playersRef| >= 1
    ensures OnWinner(OnPlayers(v, names), name).rotation == OnWinner(v, name).rotation
  {
  }

  /** Once the re-render has run, the winner is aimed within the new list. */
  lemma RenderCommitsList(v: WheelView, names: seq<string>, name: string)
    requires |names| >= 1
    ensures var r := OnWinner(SyncRef(OnPlayers(v, names)), name);
            G.SliceOf(|names|, G.LandedAngle(r.rotation, 0.0)) == G.WinningIndex(names, name)
  {
  }
}

=== FILE: wheel_geometry.dfy ===
/** The arithmetic of the newer wheel's `/topic/wheel-results` handler and of
    the slices it draws, over exact reals (angles in degrees, delays in ms). */
module WheelGeometry {

  const FullTurn: real := 360.0
  /** Full turns the wheel makes before settling. */
  const FullSpins: nat := 5
  /** Length of the spin animation. */
  const SpinDuration: real := 3000.0
  /** Pause on the winner before the wheel is reset. */
  const RestPause: real := 3000.0

  /** Angle of one slice: 360 for a single player, 360/N otherwise. */
  function SliceAngle(n: nat): (s: real)
    requires n >= 1
    ensures s > 0.0
    ensures s * (n as real) == FullTurn
  {
    if n == 1 then FullTurn else FullTurn / (n as real)
  }

  /** Start angle of slice `i`; slice `i` covers [SliceStart(n, i), SliceStart(n, i + 1)). */
  function SliceStart(n: nat, i: int): real
    requires n >= 1
  {
    (i as real) * SliceAngle(n)
  }

  /** `a` lies in slice `i` of an `n`-player wheel. */
  predicate InSlice(n: nat, i: int, a: real)
    requires n >= 1
  {
    0 <= i < n && SliceStart(n, i) <= a < SliceStart(n, i + 1)
  }

  /** The slice drawn under angle `a` of the wheel's own frame. */
  function SliceOf(n: nat, a: real): (i: int)
    requires n >= 1
    requires 0.0 <= a < FullTurn
    ensures InSlice(n, i, a)
  {
    FloorOfQuotient(a, SliceAngle(n), n);
    (a / SliceAngle(n)).Floor
  }

  /** Scaling by a positive factor keeps the order of two reals. */
  lemma ScaleMonotone(x: real, y: real, s: real)
    requires s > 0.0
    ensures x <= y <==> x * s <= y * s
  {
    if x <= y {
      assert (y - x) * s >= 0.0;
    } else {
      assert (x - y) * s > 0.0;
    }
  }

  /** Dividing an angle of [0, n * s) by `s` and rounding down gives the index
      of the width-`s` interval holding it. */
  lemma FloorOfQuotient(a: real, s: real, n: int)
    requires s > 0.0
    requires 0.0 <= a < (n as real) * s
    ensures var i := (a / s).Floor;
            0 <= i < n && (i as real) * s <= a < ((i + 1) as real) * s
  {
    var q := a / s;
    var i := q.Floor;
    assert a == q * s;
    assert (i as real) <= q < (i as real) + 1.0;
    ScaleMonotone(0.0, q, s);
    ScaleMonotone(n as real, q, s);
    ScaleMonotone(i as real, q, s);
    ScaleMonotone((i + 1) as real, q, s);
    assert q * s < ((i + 1) as real) * s;
    assert a < ((i + 1) as real) * s;
  }

  /** If slice `x` starts at or before `a` and slice `y` ends after it, `x <= y`. */
  lemma IndexOrder(x: int, y: int, s: real, a: real)
    requires s > 0.0
    requires (x as real) * s <= a < ((y + 1) as real) * s
    ensures x <= y
  {
    ScaleMonotone((y + 1) as real, x as real, s);
  }

  /** The slices tile the turn: an angle of [0, 360) lies in exactly one slice. */
  lemma SlicesTile(n: nat, a: real, i: int)
    requires n >= 1
    requires 0.0 <= a < FullTurn
    ensures InSlice(n, i, a) <==> i == SliceOf(n, a)
  {
    var j := SliceOf(n, a);
    if InSlice(n, i, a) {
      // Each slice ends where the next begins, so neither index can exceed the other.
      IndexOrder(i, j, SliceAngle(n), a);
      IndexOrder(j, i, SliceAngle(n), a);
    }
  }

  /** No slice reaches outside [0, 360). */
  lemma SlicesWithinTurn(n: nat, i: int, a: real)
    requires n >= 1
    requires InSlice(n, i, a)
    ensures 0.0 <= a < FullTurn
  {
    var s := SliceAngle(n);
    assert 0.0 <= (i as real) * s;
    assert ((i + 1) as real) * s <= (n as real) * s;
  }

  /** The slice angles add up to one full turn. */
  function SumOfSlices(n: nat, k: nat): (total: real)
    requires n >= 1
    requires k <= n
    ensures total == SliceStart(n, k)
  {
    if k == 0 then 0.0 else SumOfSlices(n, k - 1) + SliceAngle(n)
  }

  lemma SlicesSumToFullTurn(n: nat)
    requires n >= 1
    ensures SumOfSlices(n, n) == FullTurn
  {
  }

  /** `Array.prototype.indexOf`: the first position of `x`, or -1 when absent. */
  function IndexOf(xs: seq<string>, x: string): (r: int)
    ensures -1 <= r < |xs|
    ensures r == -1 <==> x !in xs
    ensures 0 <= r ==> xs[r] == x && x !in xs[..r]
  {
    if |xs| == 0 then -1
    else if xs[0] == x then 0
    else
      var k := IndexOf(xs[1..], x);
      if k == -1 then -1
      else
        assert xs[..k + 1] == [xs[0]] + xs[1..][..k];
        k + 1
  }

  /** The slice the wheel aims at: the winner's first position, falling back to 0. */
  function WinningIndex(players: seq<string>, winner: string): (idx: nat)
    ensures |players| >= 1 ==> idx < |players|
    ensures winner in players ==> players[idx] == winner && winner !in players[..idx]
    ensures winner !in players ==> idx == 0
  {
    var k := IndexOf(players, winner);
    if k == -1 then 0 else k
  }

  /** Centre of slice `idx`: `idx * slice + slice / 2`. */
  function TargetAngle(n: nat, idx: nat): (t: real)
    requires n >= 1 && idx < n
    ensures 0.0 < t < FullTurn
    ensures SliceStart(n, idx) < t < SliceStart(n, idx + 1)
    ensures t - SliceStart(n, idx) == SliceStart(n, idx + 1) - t
  {
    var s := SliceAngle(n);
    assert ((idx + 1) as real) * s <= (n as real) * s;
    (idx as real) * s + s / 2.0
  }

  /** `fullSpins * 360 + (360 - target)`. */
  function FinalRotation(t: real): (r: real)
    requires 0.0 < t < FullTurn
    ensures (FullSpins as real) * FullTurn < r < ((FullSpins + 1) as real) * FullTurn
    ensures r + t == ((FullSpins + 1) as real) * FullTurn
  {
    (FullSpins as real) * FullTurn + (FullTurn - t)
  }

  /** `spinDuration * (1 - (360 - target) / finalRotation)`: when the winner is shown. */
  function RevealDelay(t: real): (d: real)
    requires 0.0 < t < FullTurn
    ensures d * FinalRotation(t) == SpinDuration * (FullSpins as real) * FullTurn
    ensures 2500.0 < d < SpinDuration
  {
    var f := FinalRotation(t);
    var d := SpinDuration * (1.0 - (FullTurn - t) / f);
    assert (FullTurn - t) / f * f == FullTurn - t;
    assert d * f == SpinDuration * (f - (FullTurn - t));
    d
  }

  /** When the wheel is reset: spin duration plus the rest pause. */
  const ResetDelay: real := SpinDuration + RestPause

  /** The winner is always revealed before the wheel resets. */
  lemma RevealBeforeReset(t: real)
    requires 0.0 < t < FullTurn
    ensures 0.0 < RevealDelay(t) < ResetDelay
  {
  }

  /** `x` reduced into [0, 360). */
  function Normalize(x: real): (r: real)
    ensures 0.0 <= r < FullTurn
    ensures ((x - r) / FullTurn).Floor as real == (x - r) / FullTurn
  {
    var k := (x / FullTurn).Floor;
    x - (k as real) * FullTurn
  }

  /** Normalizing ignores whole turns. */
  lemma NormalizeWholeTurns(x: real, k: int)
    requires 0.0 <= x < FullTurn
    ensures Normalize(x + (k as real) * FullTurn) == x
  {
    var y := x + (k as real) * FullTurn;
    assert y / FullTurn == x / FullTurn + k as real;
    assert (y / FullTurn).Floor == k;
  }

  /** The angle of the wheel's own frame that sits under a pointer fixed at
      angle `pointer` once the wheel is turned by `rotation` (both clockwise). */
  function LandedAngle(rotation: real, pointer: real): (a: real)
    ensures 0.0 <= a < FullTurn
  {
    Normalize(pointer - rotation)
  }

  /** After the final rotation, a pointer at `pointer` sees the wheel angle
      `target + pointer`: with the pointer at angle 0 it sees the target itself. */
  lemma LandingOffset(t: real, pointer: real)
    requires 0.0 < t < FullTurn
    requires 0.0 <= pointer < FullTurn
    ensures LandedAngle(FinalRotation(t), pointer) == Normalize(t + pointer)
  {
  }

  /** The landing property: with the pointer at angle 0, the wheel settles
      on the centre of the winning slice. */
  lemma LandsOnWinner(players: seq<string>, winner: string)
    requires |players| >= 1
    ensures var idx := WinningIndex(players, winner);
            var t := TargetAngle(|players|, idx);
            LandedAngle(FinalRotation(t), 0.0) == t &&
            SliceOf(|players|, LandedAngle(FinalRotation(t), 0.0)) == idx
  {
  }

  /** Players ["A", "B", "C"] and winner "B": index 1, slices of 120, target
      180 and a final rotation of 1980. */
  lemma ThreePlayerExample()
    ensures WinningIndex(["A", "B", "C"], "B") == 1
    ensures SliceAngle(3) == 120.0
    ensures TargetAngle(3, 1) == 180.0
    ensures FinalRotation(180.0) == 1980.0
  {
  }

  /** Where the ▼ arrow sits if it is drawn above the wheel: 12 o'clock, which
      is 270 degrees in the slices' frame (0 at 3 o'clock, clockwise). */
  const ArrowAtTop: real := 270.0

  /** With the arrow at 12 o'clock, players A, B, C and winner B: the wheel
      stops with slice 0 ("A") under the arrow, not slice 1. */
  lemma TopArrowMissesWinner()
    ensures LandedAngle(FinalRotation(TargetAngle(3, 1)), ArrowAtTop) == 90.0
    ensures SliceOf(3, LandedAngle(FinalRotation(TargetAngle(3, 1)), ArrowAtTop)) == 0
    ensures WinningIndex(["A", "B", "C"], "B") == 1
  {
    ThreePlayerExample();
    LandingOffset(180.0, ArrowAtTop);
    NormalizeWholeTurns(90.0, 1);
    SlicesTile(3, 90.0, 0);
  }

  /** The rotation that brings the target under a pointer at angle `pointer`:
      five full turns plus the remaining clockwise distance. */
  function AimedRotation(t: real, pointer: real): (r: real)
    requires 0.0 < t < FullTurn
    requires 0.0 <= pointer < FullTurn
    ensures (FullSpins as real) * FullTurn <= r < ((FullSpins + 1) as real) * FullTurn
    ensures LandedAngle(r, pointer) == t
    ensures pointer == 0.0 ==> r == FinalRotation(t)
  {
    var d := Normalize(pointer - t);
    var k := ((pointer - t - d) / FullTurn).Floor;
    assert pointer - t - d == (k as real) * FullTurn;
    NormalizeWholeTurns(t, k - FullSpins as int);
    assert pointer == 0.0 ==> d == FullTurn - t by {
      if pointer == 0.0 {
        NormalizeWholeTurns(FullTurn - t, -1);
      }
    }
    (FullSpins as real) * FullTurn + d
  }

  /** With the aimed rotation the winner's slice centre stops under the
      pointer, wherever the pointer is. */
  lemma AimedLandsOnWinner(players: seq<string>, winner: string, pointer: real)
    requires |players| >= 1
    requires 0.0 <= pointer < FullTurn
    ensures var idx := WinningIndex(players, winner);
            var t := TargetAngle(|players|, idx);
            SliceOf(|players|, LandedAngle(AimedRotation(t, pointer), pointer)) == idx
  {
    var idx := WinningIndex(players, winner);
    SlicesTile(|players|, TargetAngle(|players|, idx), idx);
  }
}
